=== FILE: README.md ===
# Audio cutter core in Dafny

A model of the host-independent core of a Unity editor extension. The extension cuts a time range out of an audio clip and saves it as a 16-bit PCM WAV file. The model covers these parts:

- **Range extraction** (`AudioProcessor.CreateCutClip`). A time window becomes a frame window and then an interleaved sample window. An empty or negative span gives no clip (the C# `null`). Samples past the end of the source are filled with silence. The cut keeps the source's channel count and rate.
- **WAV serialisation** (`AudioProcessor.WavHeader`, `WavData`, `EncodeWav`, `SaveWav`). The output is the canonical 44-byte RIFF/WAVE header (a "fmt " chunk with PCM format 1 at 16 bits, then a "data" chunk) followed by little-endian `short` samples. Each sample is `x * 32767` truncated toward zero.
- **A reference WAV reader** (`WavReader.ParseWav`). It is independent of the writer. The round-trip lemma shows that every written file whose header fields fit their widths parses back to the same channel count, sample rate and converted samples. Each rescaled sample is within one quantisation step of the original.
- **Waveform peak reduction** (`WaveformVisualizer.GenerateWaveformData`). The samples are cut into packs of `max(1, n / 1000)` consecutive samples. Each pack becomes one point: its largest absolute value. The imperative double loop is proved equal to a functional reference definition (`Peaks`).
- **Selection-marker rule** (`WaveformVisualizer.HandlePointer`). The click time is clamped into the clip. Shift moves the end marker and no shift moves the start marker, but only when a 0.01 s gap is kept.
- **Editor window rules** (`EditorWindow`). The export name gets ".wav" appended unless it already ends, ignoring case, with ".wav", ".mp3", ".ogg" or ".aiff". A new clip resets the selection to the whole clip and suggests `cut_<stem>.wav`. Cut-and-save never writes when the cut is invalid.

Files: `wrappers.dfy` (Option/Result), `bytes.dfy` (little-endian fields, ASCII tags), `clips.dfy` (the `AudioClip` record), `audio_processor.dfy`, `wav_reader.dfy`, `waveform_visualizer.dfy`, `editor_window.dfy`.

Modelling choices:

- Times and samples are exact `real`s. `Mathf.FloorToInt(t * frequency)` is the exact floor (`FrameAt`).
- `(short)(x * 32767f)` is truncation toward zero of the exact product.
- Header fields use the host's wrapping 32-bit `int` arithmetic. The bytes of a wrapped `int` are those of the exact value modulo 2^32, so each field is written as `Le32(v)`, which reduces `v` modulo 2^32. The `(ushort)` casts reduce modulo 2^16.
- The file write is a parameter. `FileSink` is either `Writable`, or `Unwritable(cause)`, which stands for a stream that throws. `SaveWav` returns the written bytes on success (the C# `true`). On failure (the C# `false`) it returns the cause, which stands for the message the host logs; the caller itself receives only `false`.

Facts about the code that the model makes explicit:

- The sample -16383 is written as the bytes `01 C0`: two's complement 0xC001, low byte first. `AudioProcessor.TwoFrameMonoExample` proves the whole 48-byte file of a two-frame mono clip.
- Samples outside [-1, 1] are neither clamped nor wrapped on purpose: the float-to-`short` cast is unchecked. The model requires samples in [-1, 1].
- The data chunk is always `2 * n` bytes (`WavData`), so a pad byte for an odd-length chunk can never arise.

## Model

| member | source | states |
|---|---|---|
| AudioProcessor.CreateCutClip | Editor/Scripts/AudioProcessor.cs:10-46 | no clip exactly when there is no source, no channels or `endFrame <= startFrame`; otherwise the cut is named "Cut_"+name, keeps channels and frequency, has `endFrame - startFrame` frames and a consistent buffer; element `i` is `src[startFrame*channels + i]` inside the source and 0 past its end; samples in [-1,1] stay in range |
| AudioProcessor.FloorToInt | Editor/Scripts/AudioProcessor.cs:15-16 | the result is the greatest integer not above the argument |
| AudioProcessor.FrameAt | Editor/Scripts/AudioProcessor.cs:15-16 | the frame of time `t` is the greatest integer not above `t * frequency` |
| AudioProcessor.CreateCutClipAt | Editor/Scripts/AudioProcessor.cs:12-19 | on a time window: invalid exactly when there are no channels or `floor(end*hz) <= floor(start*hz)`; otherwise the frame count is `floor(end*hz) - floor(start*hz)` |
| AudioProcessor.SpanOfFrames | Editor/Scripts/AudioProcessor.cs:15-38 | the interleaved span `end*ch - start*ch` is positive iff `ch > 0` and `start < end`, and dividing it by `ch` gives the frame count exactly |
| AudioProcessor.Window | Editor/Scripts/AudioProcessor.cs:26-33 | the copy has the requested length, holds the source sample at each in-range offset and silence beyond the source |
| AudioProcessor.FramesOfTimes | Editor/Scripts/AudioProcessor.cs:15-16 | non-negative times give non-negative frames and the time-to-frame conversion preserves order |
| AudioProcessor.CutPastEndIsSilent | Editor/Scripts/AudioProcessor.cs:27-33 | a window starting at or past the end of the source is a clip of pure silence of the requested length |
| AudioProcessor.HalfSecondOfConstantTone | Editor/Scripts/AudioProcessor.cs:15-69 | one second of mono 44100 Hz audio at 0.25 cut to [0, 0.5) has 22050 frames, each converting to 8191 |
| AudioProcessor.ToPcm16 | Editor/Scripts/AudioProcessor.cs:68 | for `|x| <= 1` the result lies in [-32767, 32767] and is `x*32767` truncated toward zero (the integer between 0 and `x*32767` within distance 1; `Trunc` is that rounding) |
| AudioProcessor.Quantize | Editor/Scripts/AudioProcessor.cs:61-69 | the converted buffer has one 16-bit value per input sample, in order |
| AudioProcessor.QuantizationError | Editor/Scripts/AudioProcessor.cs:68 | rescaling a converted sample by 1/32767 is within one quantisation step of the original and never further from zero |
| AudioProcessor.WavHeader | Editor/Scripts/AudioProcessor.cs:85-127 | the header is exactly 44 bytes |
| AudioProcessor.HeaderBytes | Editor/Scripts/AudioProcessor.cs:89-126 | the header layout of the given field values is exactly 44 bytes |
| AudioProcessor.WavHeaderFields | Editor/Scripts/AudioProcessor.cs:91-126 | "RIFF" at 0, "WAVE" at 8, "fmt " at 12, "data" at 36; Subchunk1Size 16, AudioFormat 1, BitsPerSample 16; ChunkSize `36+samples*ch*2`, SampleRate `hz`, ByteRate `hz*ch*2`, Subchunk2Size `samples*ch*2` read back little-endian modulo 2^32; NumChannels `ch` and BlockAlign `ch*2` modulo 2^16 |
| AudioProcessor.HeaderBytesFields | Editor/Scripts/AudioProcessor.cs:91-126 | each header field sits at its fixed offset and reads back little-endian as the value written, reduced to the field's width |
| AudioProcessor.WavData | Editor/Scripts/AudioProcessor.cs:129-140 | the data section is `2n` bytes; sample `k` is at bytes `2k` (low) and `2k+1` (high), in input order |
| AudioProcessor.EncodeWav | Editor/Scripts/AudioProcessor.cs:56-73 | the whole file is `44 + 2*samples*channels` bytes |
| AudioProcessor.EncodeWavLayout | Editor/Scripts/AudioProcessor.cs:71-73 | the file is the header followed by the data, and sample `k` reads back as its 16-bit value at offset `44 + 2k` |
| AudioProcessor.SaveWav | Editor/Scripts/AudioProcessor.cs:49-83 | succeeds exactly when the destination accepts the write, returning the encoded file of `44 + 2*samples*channels` bytes (header then data); a failure carries the cause the host logs |
| AudioProcessor.TwoFrameMonoExample | Editor/Scripts/AudioProcessor.cs:56-139 | a mono 44100 Hz clip of 0.5 and -0.5 is encoded as 48 specific bytes: RIFF size 40, data size 4, samples FF 3F and 01 C0 |
| Bytes.Le16 | Editor/Scripts/AudioProcessor.cs:107-120 | a 16-bit field is written as two bytes |
| Bytes.Le32 | Editor/Scripts/AudioProcessor.cs:94-95 | a 32-bit field is written as four bytes |
| Bytes.Ascii | Editor/Scripts/AudioProcessor.cs:91 | an ASCII tag is written as one byte per character, each the character's code |
| Clips.Length | Scripts/AudiocutterEditorWindow.cs:264 | in exact reals, the clip's length in seconds is non-negative and, times the frequency, gives the frame count |
| Bytes.Le32Decodes | Editor/Scripts/AudioProcessor.cs:94-95 | the four bytes written for a 32-bit `int` read back little-endian as the value modulo 2^32 |
| Bytes.Le16DecodesSigned | Editor/Scripts/AudioProcessor.cs:134-136 | the two bytes written for a `short` read back as the same signed value |
| WavReader.DecodeWavData | Editor/Scripts/AudioProcessor.cs:129-140 | decoding the data section recovers every 16-bit sample |
| WavReader.ParseEncodedWav | Editor/Scripts/AudioProcessor.cs:85-139 | a reader of the canonical layout accepts every written file whose fields fit and recovers channels, sample rate and the converted samples |
| WavReader.RoundTripWithinOneStep | Editor/Scripts/AudioProcessor.cs:56-73 | write then read back: same channels and rate, same sample count, each sample within ±1/32767 of the original |
| WaveformVisualizer.PackSize | Editor/Scripts/WaveformVisualizer.cs:36-37 | the pack size is at least 1 and is `n/1000` rounded down for `n >= 1000`, else 1 |
| WaveformVisualizer.PointCount | Editor/Scripts/WaveformVisualizer.cs:39-49 | the number of points is `n / packSize` rounded up: the packs cover the buffer and the last one is non-empty; 0 exactly for an empty buffer |
| WaveformVisualizer.PointCountBounds | Editor/Scripts/WaveformVisualizer.cs:36-49 | a buffer reduces to at most 1999 points, and to at least 1000 when it has at least 1000 samples |
| WaveformVisualizer.PackInRange | Editor/Scripts/WaveformVisualizer.cs:39-42 | every pack is a non-empty range inside the buffer and consecutive packs are adjacent |
| WaveformVisualizer.Abs | Editor/Scripts/WaveformVisualizer.cs:44 | the amplitude is non-negative and is the sample or its negation |
| WaveformVisualizer.Peaks | Editor/Scripts/WaveformVisualizer.cs:34-49 | the reference reduction has one point per pack, `PointCount(n)` points in all |
| WaveformVisualizer.Peak | Editor/Scripts/WaveformVisualizer.cs:41-46 | the running maximum is non-negative, at least every amplitude of the range and equal to one of them (0 on an empty range) |
| WaveformVisualizer.PackPeak | Editor/Scripts/WaveformVisualizer.cs:41-46 | the inner loop reads `packSize` samples or up to the end of the buffer, and leaves the maximum amplitude of exactly those samples |
| WaveformVisualizer.PeaksAreMaxima | Editor/Scripts/WaveformVisualizer.cs:39-49 | point `q` is the maximum of `|s[j]|` over `[q*packSize, min((q+1)*packSize, n))`; no points for an empty buffer |
| WaveformVisualizer.GenerateWaveformData | Editor/Scripts/WaveformVisualizer.cs:26-50 | the nested loops compute exactly the reference reduction of the clip's samples, and leave the state unchanged without a clip |
| WaveformVisualizer.Regenerate | Editor/Scripts/WaveformVisualizer.cs:26-33 | without a clip nothing changes; with one the point count is that of the clip's samples |
| WaveformVisualizer.RegenerateForgetsPrevious | Editor/Scripts/WaveformVisualizer.cs:30 | regenerating from the same clip gives the same state whatever the previous points were |
| WaveformVisualizer.Clamp | Editor/Scripts/WaveformVisualizer.cs:124 | the result lies in `[lo, hi]` and equals the value when it is already inside |
| WaveformVisualizer.HandlePointer | Editor/Scripts/WaveformVisualizer.cs:119-148 | true iff the selection changed, and only on a press or drag over the waveform; shift changes only the end, no shift only the start; the end moves to the clamped time iff it differs and exceeds start+0.01, the start iff it differs and is below end-0.01; a change leaves the 0.01 gap and a time inside the clip (`IsMarkerEvent` is the press-or-drag-inside test of lines 119-121) |
| WaveformVisualizer.HandlePointerKeepsGap | Editor/Scripts/WaveformVisualizer.cs:127-142 | a selection with `start + 0.01 < end` keeps that gap through any event |
| WaveformVisualizer.DrawWaveform | Editor/Scripts/WaveformVisualizer.cs:54-148 | without a clip or before any points exist the points are regenerated and nothing moves; with points the state is kept and the selection follows the marker rule (`HandlePointer`) on the clip's length; the result is true iff the selection changed, and a change keeps the gap |
| EditorWindow.EndsWithIgnoringCase | Scripts/AudiocutterEditorWindow.cs:194 | the name ends with the extension ignoring case iff some suffix of the name equals it ignoring case (`EqualIgnoringCase` is the ordinal comparison that folds ASCII letters) |
| EditorWindow.FindExtension | Scripts/AudiocutterEditorWindow.cs:191-199 | the search finds a format iff the name ends, ignoring case, with one of the listed formats |
| EditorWindow.NormalizeFileName | Scripts/AudiocutterEditorWindow.cs:190-204 | the result always ends, ignoring case, with a supported extension; a name that already does is unchanged; any other becomes exactly `name + ".wav"` |
| EditorWindow.NormalizeIdempotent | Scripts/AudiocutterEditorWindow.cs:190-204 | normalising twice equals normalising once |
| EditorWindow.LastIndexOf | Scripts/AudiocutterEditorWindow.cs:267 | the index is -1 or holds the character, and no later position holds it |
| EditorWindow.FileName | Scripts/AudiocutterEditorWindow.cs:267 | the result is the suffix of the path after its last '/' and contains no '/' |
| EditorWindow.FileNameWithoutExtension | Scripts/AudiocutterEditorWindow.cs:267 | the stem contains no '/', is a prefix of the file name, and is either the whole name (no '.') or stops at the name's last '.' |
| EditorWindow.ResetEditorWithNewClip | Scripts/AudiocutterEditorWindow.cs:258-272 | without a clip nothing changes; with one, start is 0, end is the clip's length, the name is `cut_<stem>.wav` (`SuggestedName`, lines 267-268) and the waveform is regenerated from the clip |
| EditorWindow.SuggestedNameIsNormal | Scripts/AudiocutterEditorWindow.cs:266-268 | the suggested name passes the export-name rule unchanged |
| EditorWindow.ResetSelectsWholeClip | Scripts/AudiocutterEditorWindow.cs:263-264 | with exact-real times, cutting the selection a reset makes returns every sample of a non-empty clip |
| EditorWindow.CutAndSaveAudio | Scripts/AudiocutterEditorWindow.cs:318-365 | no clip gives no action; an invalid cut gives the range error; otherwise the outcome is a save failure exactly when the destination refuses, or the encoded cut saved under the current name |
| EditorWindow.InvalidRangeWritesNothing | Scripts/AudiocutterEditorWindow.cs:326-331 | when the cut is invalid the outcome does not depend on the destination: no write is attempted |

## Left out

- All drawing and widgets: waveform rendering, time labels, sliders, buttons, dialogs, drag-and-drop, `EditorPrefs` and the header and info panels. They are host GUI calls with no result the core uses.
- Editor/Scripts/UIHandler.cs, Editor/Scripts/AudioUtility.cs and Editor/Scripts/AudioPreviewHandler.cs are not part of this model. They are widget plumbing, reflection into host preview APIs, and playback objects.
- Editor/Scripts/AudioExporter.cs and Editor/Scripts/AudiocutterEditorWindow.cs are not part of this model. The exporter repeats the window's cut-and-save flow plus directory handling, and the second window only wires components together.
- Preview playback and its timed auto-stop (`PlayPreview`, `StopPreview`, the `EditorApplication.update` callback) are left out. They are host scheduling and audio output.
- In `CutAndSaveAudio`, the default save directory, `Path.Combine`, directory creation, the asset-database refresh and the reveal-in-finder call are left out. The outcome carries the file name instead of a full path.
- Clips.Length: the length is the exact ratio `samples / frequency`. The host's `AudioClip.length` is a float and can round below that ratio. When it does, `FloorToInt(length * frequency)` is one less than `samples`, and the host's reset-then-cut yields one frame fewer than `EditorWindow.ResetSelectsWholeClip` states for the exact model.
- Clips: a clip whose `data` length differs from `samples * channels` is outside the model. The host always allocates its buffer at that size.
- AudioProcessor.FrameAt: floating-point rounding of `time * frequency` is not modelled. The product and its floor are exact reals.
- AudioProcessor.ToPcm16: the float rounding of `x * 32767f` is not modelled. Samples outside [-1, 1] are excluded by precondition, because the host's unchecked float-to-`short` cast of such values is unspecified.
- AudioProcessor.CreateCutClip: 32-bit overflow of `FloorToInt(t * frequency) * channels` is not modelled; the integers are unbounded. Large times alone could overflow it: an end time of 50000 s at 44.1 kHz is 2.2e9 frames, which does not fit an `int`. The host's `(int)` cast of an out-of-range frame is unspecified, and the product with `channels` can wrap. So the host may return no clip, or one of a different length, where the model returns a clip. This is left out because the window's sliders keep both times within the clip.
- AudioProcessor.CreateCutClip: a negative start frame with a non-empty frame span is excluded by precondition (`CutDefined` states the same condition for the time-based form). The host would index before the start of the source and throw `IndexOutOfRangeException`. This is acceptable because the window's start slider has minimum 0 (Scripts/AudiocutterEditorWindow.cs:97) and the waveform click is clamped to `[0, length]`, so `startTime >= 0` always holds there.
- AudioProcessor.CreateCutClip: NaN and infinite times are not modelled.
- WaveformVisualizer.Abs: NaN samples are not modelled.
- WaveformVisualizer.HandlePointer: the mapping from pointer position to seconds (`(x - rect.x) / rect.width * length`) and the rectangle hit test come in as event fields.
- WaveformVisualizer.HandlePointer: the 0.01 s comparisons are exact, with no float rounding.
- WavReader.ParseEncodedWav: the round trip requires that the header fields fit their widths (`FitsWavHeader`). A wrapped field cannot round-trip, and its bytes are still stated exactly by `AudioProcessor.WavHeaderFields`.
- EditorWindow.EqualIgnoringCase: case-insensitivity covers ASCII letters only. The host's ordinal case-insensitive comparison also folds non-ASCII letters.
- EditorWindow.FileName: only '/' counts as a directory separator. On Windows the host also splits at '\'.
- Byte order: a little-endian host is assumed for every field.
- I/O failures: the file write is the `FileSink` parameter. A truncated file left behind by a failed write is not modelled.

=== FILE: audio_processor.dfy ===
/** Sample-range extraction and 16-bit PCM WAV serialisation
    (`AudioProcessor` in Editor/Scripts/AudioProcessor.cs). */
module AudioProcessor {
  import opened Wrappers
  import opened Bytes
  import opened Clips

  // ---------------------------------------------------------------------
  // Range extraction
  // ---------------------------------------------------------------------

  /** Every sample lies in [-1, 1]. */
  predicate InPcmRange(xs: seq<real>) {
    forall i :: 0 <= i < |xs| ==> -1.0 <= xs[i] <= 1.0
  }

  /** `Mathf.FloorToInt` on exact reals: the greatest integer not above `x`. */
  function FloorToInt(x: real): (r: int)
    ensures r as real <= x < r as real + 1.0
  {
    x.Floor
  }

  /** The interleaved samples `src[start .. start + length)`, with silence
      wherever that range runs past the end of `src`. Built front to back,
      one element per step, as the copy loop does. */
  function Window(src: seq<real>, start: nat, length: nat): (r: seq<real>)
    ensures |r| == length
    ensures forall i :: 0 <= i < length && start + i < |src| ==> r[i] == src[start + i]
    ensures forall i :: 0 <= i < length && start + i >= |src| ==> r[i] == 0.0
    decreases length
  {
    if length == 0 then []
    else
      var k := start + length - 1;
      Window(src, start, length - 1) + [if k < |src| then src[k] else 0.0]
  }

  /** The interleaved span of a frame window is positive exactly when the
      clip has channels and the window is non-empty; dividing the span by the
      channel count gives the frame count back exactly. */
  lemma {:induction false} SpanOfFrames(startFrame: int, endFrame: int, channels: nat)
    ensures endFrame * channels - startFrame * channels == (endFrame - startFrame) * channels
    ensures endFrame * channels - startFrame * channels > 0 <==> channels > 0 && startFrame < endFrame
    ensures channels > 0 ==> (endFrame * channels - startFrame * channels) / channels == endFrame - startFrame
  {
    var d := endFrame - startFrame;
    assert endFrame * channels - startFrame * channels == d * channels;
    if channels > 0 {
      if d > 0 {
        assert d * channels >= channels by { MulMonotone(d, channels); }
      } else {
        assert d * channels <= 0 by { MulNonPositive(d, channels); }
      }
      DivOfProduct(d, channels);
    } else {
      assert d * channels == 0;
    }
  }

  lemma MulMonotone(d: int, c: nat)
    requires d >= 1
    ensures d * c >= c
  {
  }

  lemma MulNonPositive(d: int, c: nat)
    requires d <= 0
    ensures d * c <= 0
  {
  }

  lemma DivOfProduct(d: int, c: nat)
    requires c > 0
    ensures (d * c) / c == d
  {
    var q := (d * c) / c;
    var m := (d * c) % c;
    assert d * c == q * c + m && 0 <= m < c;
    assert (d - q) * c == m;
    if d - q >= 1 {
      MulMonotone(d - q, c);
    } else if d - q <= -1 {
      assert (d - q) * c == (d - q + 1) * c - c;
      MulNonPositive(d - q + 1, c);
    }
  }

  /** `CreateCutClip` with the host's time-to-frame conversion already done:
      `startFrame`/`endFrame` are `Mathf.FloorToInt(time * frequency)`.
      `None` plays the part of the C# `null` result. The copy loop indexes
      the source buffer only from above, so a negative start offset with a
      positive span is outside the operation's domain. */
  function CreateCutClip(source: Option<AudioClip>, startFrame: int, endFrame: int): (r: Option<AudioClip>)
    requires source.Some? && source.value.channels > 0 && startFrame < endFrame ==> 0 <= startFrame
    ensures r.None? <==> source.None? || source.value.channels == 0 || endFrame <= startFrame
    ensures r.Some? ==>
      && r.value.name == "Cut_" + source.value.name
      && r.value.channels == source.value.channels
      && r.value.frequency == source.value.frequency
      && r.value.samples == endFrame - startFrame
      && WellFormed(r.value)
    ensures r.Some? ==>
      var src := source.value.data;
      var first := startFrame * source.value.channels;
      && (forall i :: 0 <= i < |r.value.data| && first + i < |src| ==> r.value.data[i] == src[first + i])
      && (forall i :: 0 <= i < |r.value.data| && first + i >= |src| ==> r.value.data[i] == 0.0)
    ensures r.Some? && InPcmRange(source.value.data) ==> InPcmRange(r.value.data)
  {
    if source.None? then None
    else
      var c := source.value;
      var startSample := startFrame * c.channels;
      var endSample := endFrame * c.channels;
      var clipLength := endSample - startSample;
      SpanOfFrames(startFrame, endFrame, c.channels);
      if clipLength <= 0 then None
      else
        Some(AudioClip("Cut_" + c.name, clipLength / c.channels, c.channels, c.frequency,
                       Window(c.data, startSample, clipLength)))
  }

  /** The frame index of time `t` in clip `c`: `Mathf.FloorToInt(t * c.frequency)`. */
  function FrameAt(c: AudioClip, t: real): (r: int)
    ensures r as real <= t * c.frequency as real < r as real + 1.0
  {
    FloorToInt(t * c.frequency as real)
  }

  /** The time window stays inside the domain of `CreateCutClip`: a
      negative start frame is harmless only when the frame span comes out
      empty (or there are no channels), since then nothing is copied. */
  predicate CutDefined(c: AudioClip, startTime: real, endTime: real) {
    || c.channels == 0
    || FrameAt(c, endTime) <= FrameAt(c, startTime)
    || 0 <= FrameAt(c, startTime)
  }

  /** `CreateCutClip` on a time window in seconds. */
  function CreateCutClipAt(source: Option<AudioClip>, startTime: real, endTime: real): (r: Option<AudioClip>)
    requires source.Some? ==> CutDefined(source.value, startTime, endTime)
    ensures source.None? ==> r.None?
    ensures source.Some? ==>
      (r.None? <==> source.value.channels == 0 || FrameAt(source.value, endTime) <= FrameAt(source.value, startTime))
    ensures r.Some? ==> r.value.samples == FrameAt(source.value, endTime) - FrameAt(source.value, startTime)
    ensures r.Some? ==> WellFormed(r.value)
    ensures r.Some? && InPcmRange(source.value.data) ==> InPcmRange(r.value.data)
  {
    if source.None? then None
    else
      var first := FrameAt(source.value, startTime);
      var last := FrameAt(source.value, endTime);
      assert first == FloorToInt(startTime * source.value.frequency as real);
      assert last == FloorToInt(endTime * source.value.frequency as real);
      CreateCutClip(source, first, last)
  }

  /** Frame indices of non-negative times are non-negative, and the frame
      conversion never reverses the order of two times. */
  lemma FramesOfTimes(startTime: real, endTime: real, f: real)
    requires f >= 0.0
    ensures 0.0 <= startTime ==> 0 <= FloorToInt(startTime * f)
    ensures endTime <= startTime ==> FloorToInt(endTime * f) <= FloorToInt(startTime * f)
  {
    if 0.0 <= startTime {
      assert 0.0 <= startTime * f;
    }
    if endTime <= startTime {
      assert endTime * f <= startTime * f;
    }
  }

  /** Cutting a window that starts at or after the end of the source yields
      nothing but silence of the requested length. */
  lemma CutPastEndIsSilent(source: AudioClip, startFrame: int, endFrame: int)
    requires source.channels > 0 && 0 <= startFrame < endFrame
    requires startFrame * source.channels >= |source.data|
    ensures CreateCutClip(Some(source), startFrame, endFrame).Some?
    ensures forall x :: x in CreateCutClip(Some(source), startFrame, endFrame).value.data ==> x == 0.0
  {
  }

  /** One second of mono 44100 Hz audio held at amplitude 0.25, cut to
      [0, 0.5), gives 22050 frames that all convert to 8191. */
  lemma HalfSecondOfConstantTone(clip: AudioClip)
    requires clip.channels == 1 && clip.frequency == 44100 && clip.samples == 44100
    requires WellFormed(clip) && forall i :: 0 <= i < |clip.data| ==> clip.data[i] == 0.25
    ensures CreateCutClipAt(Some(clip), 0.0, 0.5).Some?
    ensures var cut := CreateCutClipAt(Some(clip), 0.0, 0.5).value;
      && cut.samples == 22050
      && InPcmRange(cut.data)
      && forall i :: 0 <= i < |cut.data| ==> ToPcm16(cut.data[i]) == 8191
  {
    assert FrameAt(clip, 0.5) == 22050;
    assert FrameAt(clip, 0.0) == 0;
    assert ToPcm16(0.25) == 8191;
  }

  // ---------------------------------------------------------------------
  // Float to 16-bit PCM
  // ---------------------------------------------------------------------

  /** Full scale of the `* 32767f` conversion. */
  const FullScale: real := 32767.0

  /** A cast to an integral type: truncation toward zero. */
  function Trunc(x: real): int {
    if x >= 0.0 then x.Floor else -((-x).Floor)
  }

  /** `(short)(x * 32767f)`: scale and truncate toward zero. */
  function ToPcm16(x: real): (s: int)
    requires -1.0 <= x <= 1.0
    ensures -32767 <= s <= 32767
    ensures x >= 0.0 ==> 0 <= s && s as real <= x * FullScale < s as real + 1.0
    ensures x < 0.0 ==> s <= 0 && s as real - 1.0 < x * FullScale <= s as real
  {
    Trunc(x * FullScale)
  }

  /** The `intData` buffer: every sample converted, in order. */
  function Quantize(xs: seq<real>): (r: seq<int>)
    requires InPcmRange(xs)
    ensures |r| == |xs|
    ensures forall i :: 0 <= i < |xs| ==> IsInt16(r[i]) && r[i] == ToPcm16(xs[i])
  {
    seq(|xs|, i requires 0 <= i < |xs| => ToPcm16(xs[i]))
  }

  /** Reading a converted sample back as `s / 32767` is within one
      quantisation step of the original, and never further from zero. */
  lemma QuantizationError(x: real)
    requires -1.0 <= x <= 1.0
    ensures -1.0 / FullScale < ToPcm16(x) as real / FullScale - x < 1.0 / FullScale
    ensures x >= 0.0 ==> ToPcm16(x) as real / FullScale <= x
    ensures x < 0.0 ==> x <= ToPcm16(x) as real / FullScale
  {
    var s := ToPcm16(x) as real;
    assert -1.0 < s - x * FullScale < 1.0;
    assert s / FullScale - x == (s - x * FullScale) / FullScale;
  }

  // ---------------------------------------------------------------------
  // WAV serialisation
  // ---------------------------------------------------------------------

  /** The canonical 44-byte RIFF/WAVE header for `samples` frames of
      `channels` interleaved 16-bit PCM samples at `hz`. The size and rate
      fields are computed as the host computes them. */
  function WavHeader(samples: int, channels: int, hz: int): (h: seq<byte>)
    ensures |h| == 44
  {
    HeaderBytes(36 + samples * channels * 2, channels, hz, hz * channels * 2,
                channels * 2, samples * channels * 2)
  }

  /** The header's byte layout, given the values of its variable fields:
      "RIFF", ChunkSize, "WAVE", "fmt ", Subchunk1Size 16, AudioFormat 1
      (PCM), NumChannels, SampleRate, ByteRate, BlockAlign, BitsPerSample 16,
      "data", Subchunk2Size. */
  function HeaderBytes(chunkSize: int, channels: int, hz: int, byteRate: int,
                       blockAlign: int, dataSize: int): (h: seq<byte>)
    ensures |h| == 44
  {
    Ascii("RIFF") + Le32(chunkSize) + Ascii("WAVE")
    + Ascii("fmt ") + Le32(16) + Le16(1) + Le16(channels)
    + Le32(hz) + Le32(byteRate) + Le16(blockAlign) + Le16(16)
    + Ascii("data") + Le32(dataSize)
  }

  /** The data section: each 16-bit sample as two bytes, low byte first, in
      input order. Built one sample at a time, as the writing loop does. */
  function WavData(pcm: seq<int>): (d: seq<byte>)
    ensures |d| == 2 * |pcm|
    ensures forall k :: 0 <= k < |pcm| ==> d[2 * k] == Le16(pcm[k])[0] && d[2 * k + 1] == Le16(pcm[k])[1]
  {
    if |pcm| == 0 then []
    else WavData(pcm[..|pcm| - 1]) + Le16(pcm[|pcm| - 1])
  }

  /** The whole file `SaveWav` writes for a clip. */
  function EncodeWav(clip: AudioClip): (bytes: seq<byte>)
    requires WellFormed(clip) && InPcmRange(clip.data)
    ensures |bytes| == 44 + 2 * clip.samples * clip.channels
  {
    var n := clip.samples * clip.channels;
    assert |clip.data| == n;
    assert 2 * clip.samples * clip.channels == 2 * n;
    WavHeader(clip.samples, clip.channels, clip.frequency) + WavData(Quantize(clip.data))
  }

  /** What the file system does with the write: `Writable` accepts it,
      `Unwritable` makes the stream throw with the given cause. */
  datatype FileSink = Writable | Unwritable(cause: string)

  /** `SaveWav`: the bytes written on success (the C# `true`), or the
      caught exception's message (the C# `false`). */
  function SaveWav(sink: FileSink, clip: AudioClip): (r: Result<seq<byte>, string>)
    requires WellFormed(clip) && InPcmRange(clip.data)
    ensures r.Success? <==> sink.Writable?
    ensures r.Success? ==> |r.value| == 44 + 2 * clip.samples * clip.channels
    ensures r.Success? ==> r.value == EncodeWav(clip)
    ensures r.Failure? ==> r.error == sink.cause
  {
    match sink
    case Writable => Success(EncodeWav(clip))
    case Unwritable(cause) => Failure(cause)
  }

  /** Field-by-field layout of the header. Every size and rate field is the
      host's 32-bit (or, for the `ushort` casts, 16-bit) value, hence the
      reductions modulo 2^32 and 2^16. */
  lemma WavHeaderFields(samples: int, channels: int, hz: int)
    ensures var h := WavHeader(samples, channels, hz);
      && h[0..4] == Ascii("RIFF") && h[0..4] == [0x52, 0x49, 0x46, 0x46]
      && U32At(h, 4) == (36 + samples * channels * 2) % Two32
      && h[8..12] == Ascii("WAVE") && h[8..12] == [0x57, 0x41, 0x56, 0x45]
      && h[12..16] == Ascii("fmt ") && h[12..16] == [0x66, 0x6D, 0x74, 0x20]
      && U32At(h, 16) == 16
      && U16At(h, 20) == 1
      && U16At(h, 22) == channels % Two16
      && U32At(h, 24) == hz % Two32
      && U32At(h, 28) == (hz * channels * 2) % Two32
      && U16At(h, 32) == (channels * 2) % Two16
      && U16At(h, 34) == 16
      && h[36..40] == Ascii("data") && h[36..40] == [0x64, 0x61, 0x74, 0x61]
      && U32At(h, 40) == (samples * channels * 2) % Two32
  {
    HeaderBytesFields(36 + samples * channels * 2, channels, hz, hz * channels * 2,
                      channels * 2, samples * channels * 2);
  }

  lemma HeaderBytesFields(chunkSize: int, channels: int, hz: int, byteRate: int,
                          blockAlign: int, dataSize: int)
    ensures var h := HeaderBytes(chunkSize, channels, hz, byteRate, blockAlign, dataSize);
      && h[0..4] == Ascii("RIFF") && h[0..4] == [0x52, 0x49, 0x46, 0x46]
      && U32At(h, 4) == chunkSize % Two32
      && h[8..12] == Ascii("WAVE") && h[8..12] == [0x57, 0x41, 0x56, 0x45]
      && h[12..16] == Ascii("fmt ") && h[12..16] == [0x66, 0x6D, 0x74, 0x20]
      && U32At(h, 16) == 16
      && U16At(h, 20) == 1
      && U16At(h, 22) == channels % Two16
      && U32At(h, 24) == hz % Two32
      && U32At(h, 28) == byteRate % Two32
      && U16At(h, 32) == blockAlign % Two16
      && U16At(h, 34) == 16
      && h[36..40] == Ascii("data") && h[36..40] == [0x64, 0x61, 0x74, 0x61]
      && U32At(h, 40) == dataSize % Two32
  {
    HeaderFixedFields(chunkSize, channels, hz, byteRate, blockAlign, dataSize);
    HeaderVariableFields(chunkSize, channels, hz, byteRate, blockAlign, dataSize);
  }

  /** The header split at byte 24, between NumChannels and SampleRate. */
  lemma HeaderHalves(chunkSize: int, channels: int, hz: int, byteRate: int,
                     blockAlign: int, dataSize: int)
    ensures HeaderBytes(chunkSize, channels, hz, byteRate, blockAlign, dataSize)
      == (Ascii("RIFF") + Le32(chunkSize) + Ascii("WAVE")
          + Ascii("fmt ") + Le32(16) + Le16(1) + Le16(channels))
       + (Le32(hz) + Le32(byteRate) + Le16(blockAlign) + Le16(16)
          + Ascii("data") + Le32(dataSize))
  {
  }

  /** The tags and the constant fields of the header. */
  lemma HeaderFixedFields(chunkSize: int, channels: int, hz: int, byteRate: int,
                          blockAlign: int, dataSize: int)
    ensures var h := HeaderBytes(chunkSize, channels, hz, byteRate, blockAlign, dataSize);
      && h[0..4] == Ascii("RIFF") && h[0..4] == [0x52, 0x49, 0x46, 0x46]
      && h[8..12] == Ascii("WAVE") && h[8..12] == [0x57, 0x41, 0x56, 0x45]
      && h[12..16] == Ascii("fmt ") && h[12..16] == [0x66, 0x6D, 0x74, 0x20]
      && U32At(h, 16) == 16
      && U16At(h, 20) == 1
      && U16At(h, 34) == 16
      && h[36..40] == Ascii("data") && h[36..40] == [0x64, 0x61, 0x74, 0x61]
  {
    var h := HeaderBytes(chunkSize, channels, hz, byteRate, blockAlign, dataSize);
    HeaderHalves(chunkSize, channels, hz, byteRate, blockAlign, dataSize);
    TagBytes();
    assert h[0..4] == Ascii("RIFF");
    assert h[8..12] == Ascii("WAVE");
    assert h[12..16] == Ascii("fmt ");
    assert h[36..40] == Ascii("data");
    assert U32At(h, 16) == 16 by {
      assert h[16..20] == Le32(16);
      U32AtSlice(h, 16); Le32Decodes(16);
    }
    assert U16At(h, 20) == 1 by {
      assert h[20..22] == Le16(1);
      U16AtSlice(h, 20); Le16Decodes(1);
    }
    assert U16At(h, 34) == 16 by {
      assert h[34..36] == Le16(16);
      U16AtSlice(h, 34); Le16Decodes(16);
    }
  }

  /** The size, channel and rate fields of the header. */
  lemma HeaderVariableFields(chunkSize: int, channels: int, hz: int, byteRate: int,
                             blockAlign: int, dataSize: int)
    ensures var h := HeaderBytes(chunkSize, channels, hz, byteRate, blockAlign, dataSize);
      && U32At(h, 4) == chunkSize % Two32
      && U16At(h, 22) == channels % Two16
      && U32At(h, 24) == hz % Two32
      && U32At(h, 28) == byteRate % Two32
      && U16At(h, 32) == blockAlign % Two16
      && U32At(h, 40) == dataSize % Two32
  {
    var h := HeaderBytes(chunkSize, channels, hz, byteRate, blockAlign, dataSize);
    HeaderHalves(chunkSize, channels, hz, byteRate, blockAlign, dataSize);
    assert U32At(h, 4) == chunkSize % Two32 by {
      assert h[4..8] == Le32(chunkSize);
      U32AtSlice(h, 4); Le32Decodes(chunkSize);
    }
    assert U16At(h, 22) == channels % Two16 by {
      assert h[22..24] == Le16(channels);
      U16AtSlice(h, 22); Le16Decodes(channels);
    }
    assert U32At(h, 24) == hz % Two32 by {
      assert h[24..28] == Le32(hz);
      U32AtSlice(h, 24); Le32Decodes(hz);
    }
    assert U32At(h, 28) == byteRate % Two32 by {
      assert h[28..32] == Le32(byteRate);
      U32AtSlice(h, 28); Le32Decodes(byteRate);
    }
    assert U16At(h, 32) == blockAlign % Two16 by {
      assert h[32..34] == Le16(blockAlign);
      U16AtSlice(h, 32); Le16Decodes(blockAlign);
    }
    assert U32At(h, 40) == dataSize % Two32 by {
      assert h[40..44] == Le32(dataSize);
      U32AtSlice(h, 40); Le32Decodes(dataSize);
    }
  }

  /** The file is the header followed by the data section, and sample `k`
      reads back from bytes `44 + 2k` and `45 + 2k` as its 16-bit value. */
  lemma EncodeWavLayout(clip: AudioClip)
    requires WellFormed(clip) && InPcmRange(clip.data)
    ensures var bytes := EncodeWav(clip);
      && bytes[..44] == WavHeader(clip.samples, clip.channels, clip.frequency)
      && forall k :: 0 <= k < |clip.data| ==> I16At(bytes, 44 + 2 * k) == ToPcm16(clip.data[k])
  {
    var bytes := EncodeWav(clip);
    var h := WavHeader(clip.samples, clip.channels, clip.frequency);
    var pcm := Quantize(clip.data);
    var d := WavData(pcm);
    assert bytes == h + d;
    assert bytes[..44] == h;
    forall k | 0 <= k < |clip.data|
      ensures I16At(bytes, 44 + 2 * k) == ToPcm16(clip.data[k])
    {
      assert bytes[44 + 2 * k] == d[2 * k] && bytes[44 + 2 * k + 1] == d[2 * k + 1];
      assert I16At(bytes, 44 + 2 * k) == I16At(Le16(pcm[k]), 0);
      Le16DecodesSigned(pcm[k]);
    }
  }

  /** A mono 44100 Hz clip holding the two frames 0.5 and -0.5. The samples become 16383 and -16383, written as
      FF 3F and 01 C0; the RIFF size is 40 and the data size 4. The bytes are
      grouped field by field. */
  lemma TwoFrameMonoExample()
    ensures EncodeWav(AudioClip("tone", 2, 1, 44100, [0.5, -0.5])) ==
      [0x52, 0x49, 0x46, 0x46] + [40, 0, 0, 0] + [0x57, 0x41, 0x56, 0x45]
      + [0x66, 0x6D, 0x74, 0x20] + [16, 0, 0, 0] + [1, 0] + [1, 0]
      + [0x44, 0xAC, 0, 0] + [0x88, 0x58, 0x01, 0] + [2, 0] + [16, 0]
      + [0x64, 0x61, 0x74, 0x61] + [4, 0, 0, 0]
      + [0xFF, 0x3F, 0x01, 0xC0]
  {
    TwoFrameMonoHeader();
    TwoFrameMonoData();
  }

  lemma TwoFrameMonoHeader()
    ensures WavHeader(2, 1, 44100) ==
      [0x52, 0x49, 0x46, 0x46] + [40, 0, 0, 0] + [0x57, 0x41, 0x56, 0x45]
      + [0x66, 0x6D, 0x74, 0x20] + [16, 0, 0, 0] + [1, 0] + [1, 0]
      + [0x44, 0xAC, 0, 0] + [0x88, 0x58, 0x01, 0] + [2, 0] + [16, 0]
      + [0x64, 0x61, 0x74, 0x61] + [4, 0, 0, 0]
  {
    assert WavHeader(2, 1, 44100) == HeaderBytes(40, 1, 44100, 88200, 2, 4);
    assert HeaderBytes(40, 1, 44100, 88200, 2, 4) ==
      Ascii("RIFF") + Le32(40) + Ascii("WAVE")
      + Ascii("fmt ") + Le32(16) + Le16(1) + Le16(1)
      + Le32(44100) + Le32(88200) + Le16(2) + Le16(16)
      + Ascii("data") + Le32(4);
    TwoFrameMonoFieldBytes();
    TagBytes();
  }

  /** The little-endian bytes of the two-frame mono clip's numeric fields. */
  lemma TwoFrameMonoFieldBytes()
    ensures Le32(40) == [40, 0, 0, 0] && Le32(16) == [16, 0, 0, 0] && Le32(4) == [4, 0, 0, 0]
    ensures Le32(44100) == [0x44, 0xAC, 0, 0] && Le32(88200) == [0x88, 0x58, 0x01, 0]
    ensures Le16(1) == [1, 0] && Le16(2) == [2, 0] && Le16(16) == [16, 0]
  {
    assert Le32(40) == [40, 0, 0, 0] by { }
    assert Le32(16) == [16, 0, 0, 0] by { }
    assert Le32(4) == [4, 0, 0, 0] by { }
    assert Le32(44100) == [0x44, 0xAC, 0, 0] by { }
    assert Le32(88200) == [0x88, 0x58, 0x01, 0] by { }
  }

  /** The ASCII bytes of the four chunk tags. */
  lemma TagBytes()
    ensures Ascii("RIFF") == [0x52, 0x49, 0x46, 0x46] && Ascii("WAVE") == [0x57, 0x41, 0x56, 0x45]
    ensures Ascii("fmt ") == [0x66, 0x6D, 0x74, 0x20] && Ascii("data") == [0x64, 0x61, 0x74, 0x61]
  {
    assert Ascii("RIFF") == [0x52, 0x49, 0x46, 0x46] by { }
    assert Ascii("WAVE") == [0x57, 0x41, 0x56, 0x45] by { }
    assert Ascii("fmt ") == [0x66, 0x6D, 0x74, 0x20] by { }
    assert Ascii("data") == [0x64, 0x61, 0x74, 0x61] by { }
  }

  lemma TwoFrameMonoData()
    ensures WavData(Quantize([0.5, -0.5])) == [0xFF, 0x3F, 0x01, 0xC0]
  {
    assert ToPcm16(0.5) == 16383;
    assert ToPcm16(-0.5) == -16383;
    assert Quantize([0.5, -0.5]) == [16383, -16383];
    assert Le16(16383) == [0xFF, 0x3F];
    assert Le16(-16383) == [0x01, 0xC0];
    assert [16383, -16383][..1] == [16383];
    assert WavData([16383]) == [] + Le16(16383);
  }
}

=== FILE: bytes.dfy ===
/** Byte-level encodings used by the WAV writer: little-endian integers as
    `BitConverter.GetBytes` produces them on a little-endian host, and the
    ASCII chunk tags. */
module Bytes {

  /** One octet of a `byte[]`. */
  type byte = b: int | 0 <= b < 0x100

  const Two16: int := 0x1_0000
  const Two32: int := 0x1_0000_0000

  /** The range of the host's signed 16-bit `short`. */
  predicate IsInt16(x: int) {
    -0x8000 <= x < 0x8000
  }

  /** The two bytes written for a 16-bit field, low byte first. Any integer
      is first reduced modulo 2^16, which is what the unchecked `(ushort)` and
      `(short)` casts of the host do to a wider value. */
  function Le16(x: int): (r: seq<byte>)
    ensures |r| == 2
  {
    var u := x % Two16;
    [u % 0x100, u / 0x100]
  }

  /** The four bytes written for a 32-bit `int` field, low byte first. The
      host's 32-bit arithmetic wraps, and the bytes of a wrapped `int` are
      those of the mathematical value modulo 2^32. */
  function Le32(x: int): (r: seq<byte>)
    ensures |r| == 4
  {
    var u := x % Two32;
    Le16(u % Two16) + Le16(u / Two16)
  }

  /** Unsigned little-endian 16-bit read at `off`. */
  function U16At(b: seq<byte>, off: nat): nat
    requires off + 2 <= |b|
  {
    b[off] as int + 0x100 * (b[off + 1] as int)
  }

  /** Unsigned little-endian 32-bit read at `off`. */
  function U32At(b: seq<byte>, off: nat): nat
    requires off + 4 <= |b|
  {
    U16At(b, off) + Two16 * U16At(b, off + 2)
  }

  /** Two's-complement little-endian 16-bit read at `off`. */
  function I16At(b: seq<byte>, off: nat): int
    requires off + 2 <= |b|
  {
    var u := U16At(b, off);
    if u < 0x8000 then u else u - Two16
  }

  /** The ASCII bytes of a tag such as "RIFF"; UTF-8 agrees with ASCII on
      these characters. */
  function Ascii(s: string): (r: seq<byte>)
    requires forall i :: 0 <= i < |s| ==> s[i] as int < 0x80
    ensures |r| == |s|
    ensures forall i :: 0 <= i < |s| ==> r[i] == s[i] as int
  {
    seq(|s|, i requires 0 <= i < |s| => s[i] as int)
  }

  lemma Le16Decodes(x: int)
    ensures U16At(Le16(x), 0) == x % Two16
  {
  }

  lemma Le32Decodes(x: int)
    ensures U32At(Le32(x), 0) == x % Two32
  {
    var u := x % Two32;
    Le16Decodes(u % Two16);
    Le16Decodes(u / Two16);
    assert U16At(Le32(x), 0) == U16At(Le16(u % Two16), 0);
    assert U16At(Le32(x), 2) == U16At(Le16(u / Two16), 0);
  }

  lemma Le16DecodesSigned(x: int)
    requires IsInt16(x)
    ensures I16At(Le16(x), 0) == x
  {
    Le16Decodes(x);
  }

  /** A read inside `b` is unaffected by what precedes or follows it. */
  lemma U16AtSlice(b: seq<byte>, off: nat)
    requires off + 2 <= |b|
    ensures U16At(b, off) == U16At(b[off..off + 2], 0)
  {
  }

  lemma U32AtSlice(b: seq<byte>, off: nat)
    requires off + 4 <= |b|
    ensures U32At(b, off) == U32At(b[off..off + 4], 0)
  {
  }
}

=== FILE: clips.dfy ===
/** The host's `AudioClip` as the core sees it. */
module Clips {

  /** `samples` is the host's per-channel frame count (`AudioClip.samples`);
      `data` is what `GetData(buffer, 0)` delivers: interleaved samples,
      channel by channel within each frame. The host sizes that buffer as
      `samples * channels`, so a clip the host hands over is `WellFormed`;
      members that read `data` take its length as the sample count. */
  datatype AudioClip = AudioClip(
    name: string,
    samples: nat,
    channels: nat,
    frequency: nat,
    data: seq<real>)

  /** The buffer holds exactly one sample per channel per frame. */
  predicate WellFormed(c: AudioClip) {
    |c.data| == c.samples * c.channels
  }

  /** A clip the host can create: at least one channel and a positive rate. */
  predicate Valid(c: AudioClip) {
    c.channels >= 1 && c.frequency >= 1 && WellFormed(c)
  }

  /** `AudioClip.length`, the duration in seconds. */
  function Length(c: AudioClip): (r: real)
    requires c.frequency >= 1
    ensures r >= 0.0
    ensures r * (c.frequency as real) == c.samples as real
  {
    c.samples as real / c.frequency as real
  }
}

=== FILE: editor_window.dfy ===
/** The editor window's own logic (Scripts/AudiocutterEditorWindow.cs): the
    export file-name rule, the reset on a new clip, and the guard that stops
    a save when the cut is invalid. */
module EditorWindow {
  import opened Wrappers
  import opened Bytes
  import opened Clips
  import opened AudioProcessor
  import WV = WaveformVisualizer

  // ---------------------------------------------------------------------
  // Export file name
  // ---------------------------------------------------------------------

  /** The extensions the export field accepts as they are. */
  const SupportedFormats: seq<string> := [".wav", ".mp3", ".ogg", ".aiff"]

  /** The extension appended to any other name. */
  const DefaultExtension: string := ".wav"

  /** Upper-case mapping of the ASCII letters; other characters map to
      themselves. */
  function ToUpperAscii(c: char): char {
    if 'a' <= c <= 'z' then (c as int - 32) as char else c
  }

  /** Ordinal comparison ignoring (ASCII) case. */
  predicate EqualIgnoringCase(a: string, b: string) {
    |a| == |b| && forall i :: 0 <= i < |a| ==> ToUpperAscii(a[i]) == ToUpperAscii(b[i])
  }

  /** `s.EndsWith(suffix, StringComparison.OrdinalIgnoreCase)`. */
  predicate EndsWithIgnoringCase(s: string, suffix: string): (b: bool)
    ensures b <==> exists k :: 0 <= k <= |s| && EqualIgnoringCase(s[k..], suffix)
  {
    |suffix| <= |s| && EqualIgnoringCase(s[|s| - |suffix|..], suffix)
  }

  /** The name already carries one of the supported extensions. */
  predicate HasSupportedExtension(name: string) {
    exists f :: f in SupportedFormats && EndsWithIgnoringCase(name, f)
  }

  /** The `foreach ... break` search over a list of formats. */
  function FindExtension(name: string, formats: seq<string>): (found: bool)
    ensures found <==> exists f :: f in formats && EndsWithIgnoringCase(name, f)
  {
    if |formats| == 0 then false
    else if EndsWithIgnoringCase(name, formats[0]) then true
    else
      assert forall f :: f in formats ==> f == formats[0] || f in formats[1..];
      FindExtension(name, formats[1..])
  }

  /** The file-name rule of `DrawExportSettings`: keep a name with a
      supported extension, append ".wav" to any other. */
  function NormalizeFileName(name: string): (r: string)
    ensures HasSupportedExtension(r)
    ensures HasSupportedExtension(name) ==> r == name
    ensures !HasSupportedExtension(name) ==> r == name + DefaultExtension
  {
    var hasValidExtension := FindExtension(name, SupportedFormats);
    if hasValidExtension then name
    else
      var r := name + DefaultExtension;
      assert r[|r| - |DefaultExtension|..] == DefaultExtension;
      assert EndsWithIgnoringCase(r, SupportedFormats[0]);
      r
  }

  /** Normalising twice is normalising once. */
  lemma NormalizeIdempotent(name: string)
    ensures NormalizeFileName(NormalizeFileName(name)) == NormalizeFileName(name)
  {
  }

  // ---------------------------------------------------------------------
  // Reset on a new clip
  // ---------------------------------------------------------------------

  /** Index of the last `c` in `s`, or -1. */
  function LastIndexOf(s: string, c: char): (k: int)
    ensures -1 <= k < |s|
    ensures k >= 0 ==> s[k] == c
    ensures forall j :: k < j < |s| ==> s[j] != c
  {
    if |s| == 0 then -1
    else if s[|s| - 1] == c then |s| - 1
    else LastIndexOf(s[..|s| - 1], c)
  }

  /** Nothing after the last occurrence is another occurrence. */
  lemma NoneAfter(s: string, k: int, c: char)
    requires -1 <= k < |s|
    requires forall j :: k < j < |s| ==> s[j] != c
    ensures c !in s[k + 1..]
  {
  }

  /** `Path.GetFileName`: what follows the last directory separator. */
  function FileName(path: string): (f: string)
    ensures '/' !in f
    ensures |f| <= |path| && f == path[|path| - |f|..]
    ensures |f| < |path| ==> path[|path| - |f| - 1] == '/'
  {
    var k := LastIndexOf(path, '/');
    NoneAfter(path, k, '/');
    path[k + 1..]
  }

  /** `Path.GetFileNameWithoutExtension`: the file name up to, not
      including, its last '.'. */
  function FileNameWithoutExtension(path: string): (stem: string)
    ensures '/' !in stem
    ensures var f := FileName(path);
      && |stem| <= |f| && stem == f[..|stem|]
      && (|stem| == |f| ==> '.' !in f)
      && (|stem| < |f| ==> f[|stem|] == '.' && '.' !in f[|stem| + 1..])
  {
    var f := FileName(path);
    var k := LastIndexOf(f, '.');
    if k < 0 then f
    else
      NoneAfter(f, k, '.');
      f[..k]
  }

  /** The window fields the modelled operations read and write. */
  datatype EditorState = EditorState(
    startTime: real,
    endTime: real,
    saveFileName: string,
    waveform: WV.Visualizer)

  /** The name suggested for the cut of a clip: "cut_<stem>.wav". */
  function SuggestedName(clip: AudioClip): string {
    "cut_" + FileNameWithoutExtension(clip.name) + DefaultExtension
  }

  /** `ResetEditorWithNewClip`: select the whole clip, suggest a file name
      and regenerate the waveform. */
  function ResetEditorWithNewClip(st: EditorState, clip: Option<AudioClip>): (r: EditorState)
    requires clip.Some? ==> clip.value.frequency >= 1
    ensures clip.None? ==> r == st
    ensures clip.Some? ==>
      && r.startTime == 0.0
      && r.endTime == Length(clip.value)
      && r.saveFileName == SuggestedName(clip.value)
      && r.waveform == WV.Regenerate(st.waveform, clip)
  {
    if clip.None? then st
    else
      var c := clip.value;
      EditorState(0.0, Length(c), SuggestedName(c), WV.Regenerate(st.waveform, clip))
  }

  /** The suggested name already passes the file-name rule unchanged. */
  lemma SuggestedNameIsNormal(clip: AudioClip)
    ensures NormalizeFileName(SuggestedName(clip)) == SuggestedName(clip)
  {
    var n := SuggestedName(clip);
    assert n[|n| - |DefaultExtension|..] == DefaultExtension;
    assert EndsWithIgnoringCase(n, SupportedFormats[0]);
  }

  /** After a reset the selection covers the whole clip: cutting it gives
      back every sample of a non-empty clip. */
  lemma ResetSelectsWholeClip(st: EditorState, clip: AudioClip)
    requires Valid(clip) && clip.samples > 0
    ensures var r := ResetEditorWithNewClip(st, Some(clip));
      CreateCutClipAt(Some(clip), r.startTime, r.endTime) == Some(clip.(name := "Cut_" + clip.name))
  {
    var f := clip.frequency as real;
    assert Length(clip) * f == clip.samples as real;
    assert FrameAt(clip, Length(clip)) == clip.samples;
    assert FrameAt(clip, 0.0) == 0;
    var cut := CreateCutClipAt(Some(clip), 0.0, Length(clip));
    assert cut.Some?;
    assert cut.value.data == clip.data;
  }

  // ---------------------------------------------------------------------
  // Cut and save
  // ---------------------------------------------------------------------

  /** How `CutAndSaveAudio` ends: no clip selected, the invalid-range
      dialog, the save-failed dialog, or a saved file. */
  datatype CutSaveOutcome =
    | NoSourceClip
    | InvalidRange
    | SaveFailed(cause: string)
    | Saved(fileName: string, bytes: seq<byte>)

  /** `CutAndSaveAudio` without the dialogs, the preview stop and the
      directory handling: cut the selection, and only if the cut exists
      write it as WAV under the current file name. */
  function CutAndSaveAudio(st: EditorState, source: Option<AudioClip>, sink: FileSink): (r: CutSaveOutcome)
    requires source.Some? ==> CutDefined(source.value, st.startTime, st.endTime)
    requires source.Some? ==> InPcmRange(source.value.data)
    ensures r.NoSourceClip? <==> source.None?
    ensures r.InvalidRange? <==> source.Some? && CreateCutClipAt(source, st.startTime, st.endTime).None?
    ensures r.SaveFailed? <==> source.Some? && CreateCutClipAt(source, st.startTime, st.endTime).Some? && sink.Unwritable?
    ensures r.Saved? ==>
      var cut := CreateCutClipAt(source, st.startTime, st.endTime).value;
      && sink.Writable?
      && r.fileName == st.saveFileName
      && r.bytes == EncodeWav(cut)
      && |r.bytes| == 44 + 2 * cut.samples * cut.channels
  {
    if source.None? then NoSourceClip
    else
      var cutClip := CreateCutClipAt(source, st.startTime, st.endTime);
      if cutClip.None? then InvalidRange
      else
        match SaveWav(sink, cutClip.value)
        case Success(bytes) => Saved(st.saveFileName, bytes)
        case Failure(cause) => SaveFailed(cause)
  }

  /** An invalid range never reaches the file system: the outcome is the
      same whatever the destination would have done. */
  lemma InvalidRangeWritesNothing(st: EditorState, source: Option<AudioClip>, sink1: FileSink, sink2: FileSink)
    requires source.Some? ==> CutDefined(source.value, st.startTime, st.endTime)
    requires source.Some? ==> InPcmRange(source.value.data)
    requires CutAndSaveAudio(st, source, sink1).InvalidRange?
    ensures CutAndSaveAudio(st, source, sink2) == InvalidRange
  {
  }
}

=== FILE: wav_reader.dfy ===
/** A reference reader for the canonical 16-bit PCM WAV layout, through
    which the writer's output is proved to round-trip. */
module WavReader {
  import opened Wrappers
  import opened Bytes
  import opened Clips
  import opened AudioProcessor

  /** What a reader recovers from a file. */
  datatype WavInfo = WavInfo(channels: nat, sampleRate: nat, pcm: seq<int>)

  /** The 16-bit samples of a data section, in order. */
  function DecodePcm(d: seq<byte>): (r: seq<int>)
    requires |d| % 2 == 0
    ensures |r| == |d| / 2
    ensures forall k :: 0 <= k < |r| ==> r[k] == I16At(d, 2 * k)
  {
    if |d| == 0 then []
    else DecodePcm(d[..|d| - 2]) + [I16At(d, |d| - 2)]
  }

  /** Accepts exactly a 44-byte canonical header (RIFF/WAVE tags, a 16-byte
      "fmt " chunk declaring PCM at 16 bits, consistent rate, alignment and
      sizes) followed by a data chunk that runs to the end of the file. */
  function ParseWav(b: seq<byte>): Option<WavInfo> {
    if |b| < 44 then None
    else if b[0..4] != Ascii("RIFF") || b[8..12] != Ascii("WAVE")
         || b[12..16] != Ascii("fmt ") || b[36..40] != Ascii("data") then None
    else if U32At(b, 16) != 16 || U16At(b, 20) != 1 || U16At(b, 34) != 16 then None
    else
      var channels := U16At(b, 22);
      var rate := U32At(b, 24);
      var dataSize := U32At(b, 40);
      if U32At(b, 4) != 36 + dataSize || |b| != 44 + dataSize || dataSize % 2 != 0 then None
      else if U32At(b, 28) != rate * channels * 2 || U16At(b, 32) != channels * 2 then None
      else Some(WavInfo(channels, rate, DecodePcm(b[44..])))
  }

  /** The header's size and rate fields hold their values without wrapping:
      the rate is a host `int`, `channels * 2` fits the `ushort` block-align
      field, and the byte rate and RIFF size fit 32 bits. */
  predicate FitsWavHeader(clip: AudioClip) {
    && clip.frequency < 0x8000_0000
    && clip.channels * 2 < Two16
    && clip.frequency * clip.channels * 2 < Two32
    && 36 + clip.samples * clip.channels * 2 < Two32
  }

  /** Decoding the data section recovers every 16-bit sample. */
  lemma {:induction false} DecodeWavData(pcm: seq<int>)
    requires forall k :: 0 <= k < |pcm| ==> IsInt16(pcm[k])
    ensures DecodePcm(WavData(pcm)) == pcm
  {
    var d := WavData(pcm);
    var r := DecodePcm(d);
    forall k | 0 <= k < |pcm|
      ensures r[k] == pcm[k]
    {
      assert I16At(d, 2 * k) == I16At(Le16(pcm[k]), 0);
      Le16DecodesSigned(pcm[k]);
    }
  }

  /** Round trip: the reader accepts every file the writer produces for a
      clip whose header fields fit, and recovers the channel count, the
      sample rate and the converted samples. */
  lemma {:induction false} ParseEncodedWav(clip: AudioClip)
    requires WellFormed(clip) && InPcmRange(clip.data) && FitsWavHeader(clip)
    ensures ParseWav(EncodeWav(clip)) == Some(WavInfo(clip.channels, clip.frequency, Quantize(clip.data)))
  {
    var h := WavHeader(clip.samples, clip.channels, clip.frequency);
    var pcm := Quantize(clip.data);
    var d := WavData(pcm);
    assert |d| == 2 * |clip.data|;
    FittedHeaderFields(clip);
    assert U32At(h, 40) == |d| && U32At(h, 4) == 36 + |d|;
    assert |d| % 2 == 0 by { EvenLength(|clip.data|, |d|); }
    ParseHeaderThenData(h, d);
    assert EncodeWav(clip) == h + d;
    DecodeWavData(pcm);
  }

  /** Without wrap-around every header field reads back as its exact value. */
  lemma FittedHeaderFields(clip: AudioClip)
    requires WellFormed(clip) && FitsWavHeader(clip)
    ensures var h := WavHeader(clip.samples, clip.channels, clip.frequency);
      && h[0..4] == Ascii("RIFF") && h[8..12] == Ascii("WAVE")
      && h[12..16] == Ascii("fmt ") && h[36..40] == Ascii("data")
      && U32At(h, 16) == 16 && U16At(h, 20) == 1 && U16At(h, 34) == 16
      && U32At(h, 40) == 2 * |clip.data| && U32At(h, 4) == 36 + 2 * |clip.data|
      && U16At(h, 22) == clip.channels && U32At(h, 24) == clip.frequency
      && U32At(h, 28) == U32At(h, 24) * U16At(h, 22) * 2 && U16At(h, 32) == U16At(h, 22) * 2
  {
    var n := |clip.data|;
    assert n == clip.samples * clip.channels;
    HeaderFixedFields(36 + clip.samples * clip.channels * 2, clip.channels, clip.frequency,
                      clip.frequency * clip.channels * 2, clip.channels * 2,
                      clip.samples * clip.channels * 2);
    FittedHeaderOf(clip.samples, clip.channels, clip.frequency, n);
    var h := WavHeader(clip.samples, clip.channels, clip.frequency);
    assert U32At(h, 28) == U32At(h, 24) * U16At(h, 22) * 2;
  }

  /** The numeric fields of `FittedHeaderFields` over plain integers, with
      `n` the sample count. */
  lemma FittedHeaderOf(samples: nat, ch: nat, hz: nat, n: nat)
    requires n == samples * ch
    requires hz < 0x8000_0000 && ch * 2 < Two16
    requires hz * ch * 2 < Two32 && 36 + samples * ch * 2 < Two32
    ensures var h := WavHeader(samples, ch, hz);
      && U32At(h, 40) == 2 * n && U32At(h, 4) == 36 + 2 * n
      && U16At(h, 22) == ch && U32At(h, 24) == hz
      && U32At(h, 28) == hz * ch * 2 && U16At(h, 32) == ch * 2
  {
    var rate := hz * ch * 2;
    var size := samples * ch * 2;
    assert size == 2 * n;
    assert 0 <= rate by { NonNegProduct(hz, ch); }
    FittedFieldValues(36 + size, ch, hz, rate, ch * 2, size);
  }

  /** Header field values that fit their widths read back unchanged. */
  lemma FittedFieldValues(chunkSize: int, channels: int, hz: int, byteRate: int,
                          blockAlign: int, dataSize: int)
    requires 0 <= chunkSize < Two32 && 0 <= dataSize < Two32
    requires 0 <= hz < Two32 && 0 <= byteRate < Two32
    requires 0 <= channels < Two16 && 0 <= blockAlign < Two16
    ensures var h := HeaderBytes(chunkSize, channels, hz, byteRate, blockAlign, dataSize);
      && U32At(h, 4) == chunkSize && U32At(h, 40) == dataSize
      && U32At(h, 24) == hz && U32At(h, 28) == byteRate
      && U16At(h, 22) == channels && U16At(h, 32) == blockAlign
  {
    HeaderVariableFields(chunkSize, channels, hz, byteRate, blockAlign, dataSize);
    SmallMod(chunkSize, Two32);
    SmallMod(dataSize, Two32);
    SmallMod(hz, Two32);
    SmallMod(byteRate, Two32);
    SmallMod(channels, Two16);
    SmallMod(blockAlign, Two16);
  }

  lemma EvenLength(n: nat, m: nat)
    requires m == 2 * n
    ensures m % 2 == 0
  {
  }

  lemma NonNegProduct(a: nat, b: nat)
    ensures 0 <= a * b
  {
  }

  lemma SmallMod(x: int, m: int)
    requires 0 <= x < m
    ensures x % m == x
  {
  }

  /** A canonical header whose sizes agree with the data that follows is
      accepted, and the data decodes sample by sample. */
  lemma ParseHeaderThenData(h: seq<byte>, d: seq<byte>)
    requires |h| == 44
    requires h[0..4] == Ascii("RIFF") && h[8..12] == Ascii("WAVE")
    requires h[12..16] == Ascii("fmt ") && h[36..40] == Ascii("data")
    requires U32At(h, 16) == 16 && U16At(h, 20) == 1 && U16At(h, 34) == 16
    requires U32At(h, 40) == |d| && U32At(h, 4) == 36 + |d| && |d| % 2 == 0
    requires U32At(h, 28) == U32At(h, 24) * U16At(h, 22) * 2 && U16At(h, 32) == U16At(h, 22) * 2
    ensures ParseWav(h + d) == Some(WavInfo(U16At(h, 22), U32At(h, 24), DecodePcm(d)))
  {
    var b := h + d;
    assert b[..44] == h;
    HeaderPrefixReads(b, h);
    assert b[0..4] == h[0..4] && b[8..12] == h[8..12] && b[12..16] == h[12..16] && b[36..40] == h[36..40];
    assert b[44..] == d;
  }

  /** Reads inside the first 44 bytes see only the header. */
  lemma HeaderPrefixReads(b: seq<byte>, h: seq<byte>)
    requires |h| == 44 && |b| >= 44 && b[..44] == h
    ensures forall off :: 0 <= off <= 40 ==> U32At(b, off) == U32At(h, off)
    ensures forall off :: 0 <= off <= 42 ==> U16At(b, off) == U16At(h, off)
  {
    assert forall i :: 0 <= i < 44 ==> b[i] == h[i];
  }

  /** Reading a written file back and rescaling by 1/32767 gives every
      sample within one quantisation step of the original. */
  lemma RoundTripWithinOneStep(clip: AudioClip)
    requires WellFormed(clip) && InPcmRange(clip.data) && FitsWavHeader(clip)
    ensures ParseWav(EncodeWav(clip)).Some?
    ensures var info := ParseWav(EncodeWav(clip)).value;
      && info.channels == clip.channels
      && info.sampleRate == clip.frequency
      && |info.pcm| == |clip.data|
      && forall k :: 0 <= k < |clip.data| ==>
           -1.0 / FullScale < info.pcm[k] as real / FullScale - clip.data[k] < 1.0 / FullScale
  {
    ParseEncodedWav(clip);
    forall k | 0 <= k < |clip.data|
      ensures -1.0 / FullScale < Quantize(clip.data)[k] as real / FullScale - clip.data[k] < 1.0 / FullScale
    {
      QuantizationError(clip.data[k]);
    }
  }
}

=== FILE: waveform_visualizer.dfy ===
/** Peak reduction of a sample buffer and the selection-marker rule of the
    waveform view (`WaveformVisualizer` in Editor/Scripts/WaveformVisualizer.cs).
    Drawing is left out; what remains is the data the view keeps and the
    effect of a click on the selection. */
module WaveformVisualizer {
  import opened Wrappers
  import opened Clips

  // ---------------------------------------------------------------------
  // Peak reduction
  // ---------------------------------------------------------------------

  /** The number of points the reduction aims for. */
  const Resolution: nat := 1000

  /** `Mathf.Abs`. */
  function Abs(x: real): (r: real)
    ensures r >= 0.0 && (r == x || r == -x)
  {
    if x < 0.0 then -x else x
  }

  function Min(a: int, b: int): int {
    if a < b then a else b
  }

  /** `Mathf.Max(1, n / Resolution)`: how many consecutive samples one
      point summarises. */
  function PackSize(n: nat): (p: nat)
    ensures p >= 1
    ensures p * Resolution <= (if n < Resolution then Resolution else n) < (p + 1) * Resolution
  {
    var q := n / Resolution;
    if 1 > q then 1 else q
  }

  /** How many points a buffer of `n` samples reduces to: one per pack
      start `0, p, 2p, ...` below `n`, that is, n / p rounded up. */
  function PointCount(n: nat): (k: nat)
    ensures k * PackSize(n) >= n
    ensures k == 0 || (k - 1) * PackSize(n) < n
    ensures k == 0 <==> n == 0
  {
    var p := PackSize(n);
    CeilDiv(n, p);
    (n + p - 1) / p
  }

  lemma CeilDiv(n: nat, p: nat)
    requires p >= 1
    ensures ((n + p - 1) / p) * p >= n
    ensures (n + p - 1) / p == 0 || ((n + p - 1) / p - 1) * p < n
    ensures (n + p - 1) / p == 0 <==> n == 0
  {
    var q := (n + p - 1) / p;
    var r := (n + p - 1) % p;
    assert n + p - 1 == q * p + r && 0 <= r < p;
    assert (q - 1) * p == q * p - p;
    if n > 0 {
      assert q * p > 0;
    }
  }

  /** The only count whose packs cover the buffer without an empty last
      pack is `PointCount`. */
  lemma PointCountUnique(n: nat, k: nat)
    requires k * PackSize(n) >= n
    requires k == 0 || (k - 1) * PackSize(n) < n
    requires n == 0 ==> k == 0
    ensures k == PointCount(n)
  {
    var p := PackSize(n);
    var c := PointCount(n);
    if k > c {
      assert k - 1 >= c;
      assert (k - 1) * p >= c * p by { MulLeft(c, k - 1, p); }
    } else if k < c {
      assert c - 1 >= k;
      assert (c - 1) * p >= k * p by { MulLeft(k, c - 1, p); }
    }
  }

  lemma MulLeft(a: nat, b: nat, p: nat)
    requires a <= b
    ensures a * p <= b * p
  {
  }

  /** The reduction never produces more than `2 * Resolution - 1` points,
      and a buffer of at least `Resolution` samples gives at least
      `Resolution` points. */
  lemma PointCountBounds(n: nat)
    ensures PointCount(n) <= 2 * Resolution - 1
    ensures n >= Resolution ==> PointCount(n) >= Resolution
  {
    var p := PackSize(n);
    var k := PointCount(n);
    if n < Resolution {
      assert p == 1;
    } else {
      assert p * Resolution <= n < (p + 1) * Resolution;
      assert (2 * Resolution - 1) * p == 2 * (p * Resolution) - p;
      assert (p + 1) * Resolution == p * Resolution + Resolution;
      assert (Resolution - 1) * p == p * Resolution - p;
      if k >= 2 * Resolution {
        MulLeft(2 * Resolution - 1, k - 1, p);
      }
      if k < Resolution {
        MulLeft(k, Resolution - 1, p);
      }
    }
  }

  /** First sample of pack `q`. */
  function PackStart(n: nat, q: nat): nat {
    q * PackSize(n)
  }

  /** One past the last sample of pack `q`: the pack is cut short at the
      end of the buffer. */
  function PackEnd(n: nat, q: nat): nat {
    Min((q + 1) * PackSize(n), n)
  }

  /** Every pack of a reduction is a non-empty range inside the buffer, and
      consecutive packs are adjacent. */
  lemma PackInRange(n: nat, q: nat)
    requires q < PointCount(n)
    ensures PackStart(n, q) < PackEnd(n, q) <= n
    ensures q + 1 < PointCount(n) ==> PackEnd(n, q) == PackStart(n, q + 1)
  {
    var p := PackSize(n);
    var k := PointCount(n);
    assert q * p <= (k - 1) * p by { MulLeft(q, k - 1, p); }
    assert (q + 1) * p == q * p + p;
    if q + 1 < k {
      assert (q + 1) * p <= (k - 1) * p by { MulLeft(q + 1, k - 1, p); }
    }
  }

  /** The largest absolute value in `s[lo .. hi)`, starting from 0 and
      replacing the running maximum only by a strictly larger amplitude, as
      the inner loop does. */
  function Peak(s: seq<real>, lo: nat, hi: nat): (m: real)
    requires lo <= hi <= |s|
    ensures m >= 0.0
    ensures forall j :: lo <= j < hi ==> Abs(s[j]) <= m
    ensures lo < hi ==> exists j :: lo <= j < hi && m == Abs(s[j])
    ensures lo == hi ==> m == 0.0
    decreases hi - lo
  {
    if lo == hi then 0.0
    else
      var m := Peak(s, lo, hi - 1);
      var amp := Abs(s[hi - 1]);
      if amp > m then amp else m
  }

  /** The reference reduction: point `q` is the peak of pack `q`. */
  function Peaks(s: seq<real>): (r: seq<real>)
    ensures |r| == PointCount(|s|)
  {
    seq(PointCount(|s|), q requires 0 <= q < PointCount(|s|) =>
      PackInRange(|s|, q);
      Peak(s, PackStart(|s|, q), PackEnd(|s|, q)))
  }

  /** Each point is non-negative, bounds every amplitude of its pack and is
      attained by one of them; an empty buffer has no points. */
  lemma PeaksAreMaxima(s: seq<real>)
    ensures |s| == 0 <==> |Peaks(s)| == 0
    ensures forall q :: 0 <= q < |Peaks(s)| ==>
      && Peaks(s)[q] >= 0.0
      && PackStart(|s|, q) < PackEnd(|s|, q) <= |s|
      && (forall j :: PackStart(|s|, q) <= j < PackEnd(|s|, q) ==> Abs(s[j]) <= Peaks(s)[q])
      && (exists j :: PackStart(|s|, q) <= j < PackEnd(|s|, q) && Peaks(s)[q] == Abs(s[j]))
  {
    forall q | 0 <= q < |Peaks(s)|
      ensures PackStart(|s|, q) < PackEnd(|s|, q) <= |s|
    {
      PackInRange(|s|, q);
    }
  }

  /** The view's state: the reduced waveform it draws from. */
  datatype Visualizer = Visualizer(waveformData: seq<real>)

  /** `GenerateWaveformData` as a state change: without a clip nothing
      happens, otherwise the old points are discarded and replaced by the
      reduction of the clip's samples. */
  function Regenerate(v: Visualizer, clip: Option<AudioClip>): (v': Visualizer)
    ensures clip.None? ==> v' == v
    ensures clip.Some? ==> |v'.waveformData| == PointCount(|clip.value.data|)
  {
    if clip.None? then v else Visualizer(Peaks(clip.value.data))
  }

  /** Regeneration forgets the previous points: two views that regenerate
      from the same clip end up equal. */
  lemma RegenerateForgetsPrevious(v1: Visualizer, v2: Visualizer, clip: AudioClip)
    ensures Regenerate(v1, Some(clip)) == Regenerate(v2, Some(clip))
  {
  }

  /** The inner loop: the running maximum over the pack starting at `i`,
      which stops after `packSize` samples or at the end of the buffer;
      `j` is the number of samples it read. */
  method PackPeak(samples: seq<real>, i: nat, packSize: nat) returns (maxAmp: real, j: nat)
    requires i <= |samples|
    ensures j <= packSize && i + j <= |samples|
    ensures j == packSize || i + j == |samples|
    ensures maxAmp == Peak(samples, i, i + j)
  {
    maxAmp := 0.0;
    j := 0;
    while j < packSize && i + j < |samples|
      invariant j <= packSize
      invariant i + j <= |samples|
      invariant maxAmp == Peak(samples, i, i + j)
      decreases packSize - j
    {
      var amp := Abs(samples[i + j]);
      if amp > maxAmp {
        maxAmp := amp;
      }
      j := j + 1;
    }
  }

  /** The reduction loop itself: packs of `PackSize` samples, one running
      maximum per pack. */
  method GenerateWaveformData(v: Visualizer, clip: Option<AudioClip>) returns (v': Visualizer)
    ensures v' == Regenerate(v, clip)
    ensures clip.Some? ==> |v'.waveformData| == PointCount(|clip.value.data|)
  {
    if clip.None? {
      return v;
    }
    var samples := clip.value.data;
    var n := |samples|;
    var packSize := PackSize(n);
    var data: seq<real> := [];
    var i := 0;
    while i < n
      invariant i == |data| * packSize
      invariant |data| == 0 || (|data| - 1) * packSize < n
      invariant forall q :: 0 <= q < |data| ==>
        PackStart(n, q) <= PackEnd(n, q) <= n && data[q] == Peak(samples, PackStart(n, q), PackEnd(n, q))
      decreases n - i
    {
      var maxAmp, j := PackPeak(samples, i, packSize);
      assert (|data| + 1) * packSize == i + packSize;
      assert i + j == PackEnd(n, |data|);
      data := data + [maxAmp];
      i := i + packSize;
    }
    PointCountUnique(n, |data|);
    assert data == Peaks(samples);
    v' := Visualizer(data);
  }

  // ---------------------------------------------------------------------
  // Selection markers
  // ---------------------------------------------------------------------

  /** The smallest selection the markers keep, in seconds (`0.01f`). */
  const MinGap: real := 0.01

  datatype EventKind = MouseDown | MouseDrag | OtherEvent

  /** The parts of the current GUI event the marker rule reads. `time` is the
      pointer position already mapped to seconds along the clip; `inside`
      says whether the pointer is over the waveform. */
  datatype PointerEvent = PointerEvent(kind: EventKind, inside: bool, time: real, shift: bool)

  datatype Selection = Selection(startTime: real, endTime: real)

  /** The selection after the event, and whether it changed (the method's
      `bool` result). */
  datatype MarkerUpdate = MarkerUpdate(changed: bool, selection: Selection)

  /** `Mathf.Clamp`. */
  function Clamp(value: real, lo: real, hi: real): (r: real)
    ensures lo <= hi ==> lo <= r <= hi
    ensures lo <= value <= hi ==> r == value
    ensures value < lo ==> r == lo
    ensures lo <= value && hi < value ==> r == hi
  {
    if value < lo then lo else if value > hi then hi else value
  }

  /** A press or drag over the waveform: the only events that move markers. */
  predicate IsMarkerEvent(evt: PointerEvent) {
    (evt.kind == MouseDown || evt.kind == MouseDrag) && evt.inside
  }

  /** The marker branch of `DrawWaveform`. The click time is clamped into
      the clip; with shift held the end marker moves there if that keeps the
      minimum gap after the start, otherwise the start marker moves there if
      that keeps the minimum gap before the end. */
  function HandlePointer(sel: Selection, clipLength: real, evt: PointerEvent): (u: MarkerUpdate)
    ensures u.changed <==> u.selection != sel
    ensures u.changed ==> IsMarkerEvent(evt)
    ensures evt.shift ==> u.selection.startTime == sel.startTime
    ensures !evt.shift ==> u.selection.endTime == sel.endTime
    ensures u.changed ==> u.selection.startTime + MinGap < u.selection.endTime
    ensures u.changed && clipLength >= 0.0 ==>
      0.0 <= (if evt.shift then u.selection.endTime else u.selection.startTime) <= clipLength
    ensures IsMarkerEvent(evt) && evt.shift ==>
      var t := Clamp(evt.time, 0.0, clipLength);
      (u.changed <==> t != sel.endTime && t > sel.startTime + MinGap)
      && (u.changed ==> u.selection.endTime == t)
    ensures IsMarkerEvent(evt) && !evt.shift ==>
      var t := Clamp(evt.time, 0.0, clipLength);
      (u.changed <==> t != sel.startTime && t < sel.endTime - MinGap)
      && (u.changed ==> u.selection.startTime == t)
  {
    if !IsMarkerEvent(evt) then MarkerUpdate(false, sel)
    else
      var time := Clamp(evt.time, 0.0, clipLength);
      if evt.shift then
        if sel.endTime != time && time > sel.startTime + MinGap then
          MarkerUpdate(true, sel.(endTime := time))
        else MarkerUpdate(false, sel)
      else
        if sel.startTime != time && time < sel.endTime - MinGap then
          MarkerUpdate(true, sel.(startTime := time))
        else MarkerUpdate(false, sel)
  }

  /** A selection that keeps the minimum gap keeps it through any event. */
  lemma HandlePointerKeepsGap(sel: Selection, clipLength: real, evt: PointerEvent)
    requires sel.startTime + MinGap < sel.endTime
    ensures var u := HandlePointer(sel, clipLength, evt);
      u.selection.startTime + MinGap < u.selection.endTime
  {
  }

  /** `DrawWaveform` without the drawing: with no clip or no points yet it
      (re)generates the points and reports no change; otherwise it applies
      the marker rule with the clip's length. */
  function DrawWaveform(v: Visualizer, clip: Option<AudioClip>, sel: Selection, evt: PointerEvent)
    : (r: (Visualizer, MarkerUpdate))
    requires clip.Some? ==> clip.value.frequency >= 1
    ensures clip.None? || |v.waveformData| == 0 ==> !r.1.changed && r.1.selection == sel
    ensures clip.Some? && |v.waveformData| > 0 ==> r.0 == v
    ensures clip.Some? && |v.waveformData| > 0 ==> r.1 == HandlePointer(sel, Length(clip.value), evt)
    ensures clip.None? || |v.waveformData| == 0 ==> r.0 == Regenerate(v, clip)
    ensures r.1.changed <==> r.1.selection != sel
    ensures r.1.changed ==> r.1.selection.startTime + MinGap < r.1.selection.endTime
  {
    if clip.None? || |v.waveformData| == 0 then
      (Regenerate(v, clip), MarkerUpdate(false, sel))
    else
      (v, HandlePointer(sel, Length(clip.value), evt))
  }
}

=== FILE: wrappers.dfy ===
/** Failure-carrying values: a C# `null` return becomes `None`, a caught
    exception becomes `Failure`. */
module Wrappers {

  datatype Option<+T> = None | Some(value: T)

  datatype Result<+T, +E> = Success(value: T) | Failure(error: E)
}
